=== FILE: README.md ===
# Summary Generator backend — a Dafny model

The Summary Generator is a small web service. A user logs in with a username and password. The server answers with an HTTP-only `token` cookie that holds an HS256-signed JSON Web Token, valid for 30 minutes. Two protected endpoints send the posted text to a hosted language model, asking for either a summary or 3–5 bullet points. The server post-processes the reply before returning it: it trims the summary, and it splits, filters and cleans the bullet lines. Logging out clears the cookie. At startup the credential store is seeded with one test user.

This project models that backend as pure functions and proves properties of it:

- **`Text`**:
  - Python's `str.strip` and `str.split` on a single character.
  - `strip` uses the exact set of characters `str.isspace` accepts, or an explicit character set.
- **`Seqs`**: a generic filter-then-map, which is the shape of a list comprehension with an `if`.
- **`LlmOutput`**: the post-processing of the model's reply for the summary and the bullet points.
- **`Bcrypt`**: `hashpw` and `checkpw` over a symbolic digest.
- **`Jwt`**:
  - `jose.jwt.encode` and `decode`, for the JWS compact form with an HMAC signature.
  - The signature is a symbolic term.
  - The claims are checked as `jose` checks them: `exp` against the current time truncated to whole seconds, with no leeway, and `sub` must be a string (section 4.1.2 of RFC 7519).
- **`Database`**:
  - The `users` table, keyed by username, with its unique constraints and the `is_active` default.
  - `verify_password`, including the exceptions it raises on a NULL or unparsable stored hash.
  - The `init_db` seeding step.
- **`Auth`**:
  - `create_access_token`, `get_current_user`, and the `/token` (login) and `/logout` handlers.
  - A browser cookie jar keyed by cookie name, used to state end-to-end properties. A `Set-Cookie` with Max-Age ≤ 0 deletes the cookie; any other stores it.
- **`Endpoints`**:
  - The two protected endpoints.
  - The language-model service is a function parameter.

Time is an integer count of microseconds since the epoch, passed in as `now`. A JWT `exp` counts whole seconds.

## Model

| member | source | states |
|---|---|---|
| Text.Split | backend/main.py:178 | `split('\n')` gives one more part than there are separators; no part contains the separator; joining the parts with it gives back the input |
| Text.SplitJoin | backend/main.py:178 | splitting a join of separator-free parts gives those parts back, so split and join are inverse |
| Text.StripChars | backend/main.py:180 | `s.strip(chars)`; only computes, its contract is in `Text.StripCharsSlice`, `Text.StripCharsUnique`, `Text.StripCharsIdempotent` and `Text.StripCharsEmptyIff` |
| Text.Strip | backend/main.py:157 | `s.strip()` over the 29 `isspace` code points; only computes, its contract is that of `Text.StripChars` |
| Text.StripCharsSlice | backend/main.py:157 | `strip` returns a contiguous slice of its input; everything cut from either end is in the stripped set; the result neither starts nor ends with a character of the set |
| Text.StripCharsUnique | backend/main.py:157 | if the input is a padding made of stripped characters, then a core that neither starts nor ends with one, then more padding, `strip` returns exactly that core |
| Text.StripCharsIdempotent | backend/main.py:157 | stripping twice gives the same result as stripping once |
| Text.StripCharsEmptyIff | backend/main.py:180 | `strip` gives the empty string exactly when every character is in the stripped set |
| Seqs.FilterMap | backend/main.py:180 | the list comprehension with an `if`; only computes, its contract is in `Seqs.FilterMapSelectsKept` |
| Seqs.KeptIndices | backend/main.py:180 | the positions the comprehension keeps: strictly increasing, in range, each one passes the filter, and every position that passes is listed |
| Seqs.FilterMapSelectsKept | backend/main.py:180 | the comprehension's result has one item per kept position, in order, each one the map applied to the element at that position |
| LlmOutput.Summary | backend/main.py:157 | the summary of a reply; only computes, its contract is in `LlmOutput.SummarySpec` and `LlmOutput.SummaryIdempotent` |
| LlmOutput.BulletPoints | backend/main.py:178-180 | the bullet list of a reply; only computes, its contract is in `LlmOutput.BulletPointsSpec` |
| LlmOutput.CleanLine | backend/main.py:180 | `point.strip('- ').strip()`; only computes, its contract is in `LlmOutput.CleanLineBare`, `LlmOutput.CleanLineOfMarkedText`, `LlmOutput.DashOnlyLineBecomesEmptyItem` and `LlmOutput.TabIndentedMarkerSurvives` |
| LlmOutput.BulletPointsSpec | backend/main.py:178-180 | bullets come from the lines of the trimmed reply: line count = newlines + 1, no line holds a newline, one item per line that is not whitespace-only, in order, each item that line cleaned, no more items than lines, each item free of outer whitespace |
| LlmOutput.BlankIffStripEmpty | backend/main.py:180 | the filter `if point.strip()` drops a line exactly when every character of it is whitespace |
| LlmOutput.CleanLineBare | backend/main.py:180 | a cleaned bullet never starts or ends with whitespace |
| LlmOutput.CleanLineOfMarkedText | backend/main.py:180 | a run of dashes and spaces followed by text that has neither at its ends cleans to exactly that text |
| LlmOutput.DashOnlyLineBecomesEmptyItem | backend/main.py:180 | a line of only dashes and spaces, with at least one dash, passes the filter and becomes an empty bullet |
| LlmOutput.TabIndentedMarkerSurvives | backend/main.py:180 | the dash strip runs before the whitespace strip, so `"\t- a"` cleans to `"- a"` and keeps its marker |
| LlmOutput.LinesOfJoin | backend/main.py:178 | trimmed content splits back into the newline-free lines it was joined from |
| LlmOutput.BulletPointsExample | backend/main.py:178-180 | the reply `"- a\n- b\n\n- c"` yields the bullets `a`, `b`, `c` (the blank line dropped) |
| LlmOutput.CleanLines | backend/main.py:180 | the loop over the lines computes exactly the filter-then-clean comprehension |
| LlmOutput.CollectBulletPoints | backend/main.py:178-180 | the method form of `LlmOutput.BulletPoints`: trimming, splitting and the cleaning loop together give exactly the bullet list of the reply |
| LlmOutput.SummarySpec | backend/main.py:157 | the summary is the reply without its leading and trailing whitespace, and nothing more is cut |
| LlmOutput.SummaryIdempotent | backend/main.py:157 | trimming a summary again leaves it unchanged |
| Bcrypt.HashPw | backend/database.py:44 | a digest records the salt it was made with, which is what `checkpw` reuses |
| Bcrypt.CheckPw | backend/database.py:25 | `checkpw` raises exactly when the stored text is not a bcrypt hash; the verdict for a digest is in `Bcrypt.CheckPwAcceptsOnlyOwnPassword` |
| Bcrypt.CheckPwAcceptsOnlyOwnPassword | backend/database.py:24-25 | a digest accepts its own password and rejects every other password |
| Database.User.VerifyPassword | backend/database.py:24-25 | `verify_password` raises exactly when the row holds no digest: a NULL hash is one error, unparsable text another |
| Database.EmptyStore | backend/database.py:35 | a freshly created table is empty and meets the table constraints |
| Database.FindByUsername | backend/database.py:40 | the username query finds nothing exactly when the name is not taken; in a valid table, what it finds is a stored row of that name |
| Database.FindByUsernameUnique | backend/database.py:19 | usernames are unique, so the username query returns `u` exactly when `u` is a row with that name |
| Database.Add | backend/database.py:15-22 | an insert succeeds exactly when neither username nor email is taken; it adds one row under the new name and leaves every other row alone; the new row carries the given username, email and hash and the next id, and its `is_active` defaults to true; the unique constraints still hold afterwards; if every row held a digest, every row still does exactly when the new row's hash is a digest |
| Database.InitDb | backend/database.py:34-50 | seeding is a no-op when `testuser` exists; otherwise it inserts `testuser` with email `test@example.com`, active, whose password `secret` verifies; it fails only when that email belongs to another user; other rows are unchanged; the constraints are preserved, and so is every row holding a digest |
| Database.InitDbIdempotent | backend/database.py:40-48 | running the seeding again, with any salt, changes nothing |
| Database.NewUserActiveByDefault | backend/database.py:22 | a user created without `is_active` is active |
| Jwt.Encode | backend/main.py:82 | an encoded token is a JWS carrying the given claims under the chosen algorithm |
| Jwt.ValidateClaims | backend/main.py:97 | decoded claims are accepted exactly when a present `exp` is a number not before the current second and a present `sub` is a string; accepted claims come back unchanged |
| Jwt.Decode | backend/main.py:97 | a token is accepted exactly when it is a JWS under an allowed algorithm whose signature is this key's over its header and payload, and whose claims are acceptable now; the claims returned are its payload; text that is not a JWS is malformed |
| Jwt.EncodeDecode | backend/main.py:82-97 | round trip: a token signed with the key under an allowed algorithm decodes to its own claims exactly when those are acceptable at that time |
| Jwt.DecodeSound | backend/main.py:97 | an accepted token is a JWS signed with this key under an allowed algorithm, and the claims returned are its payload |
| Jwt.TamperedRejected | backend/main.py:97 | changing the header or payload under a kept signature, or verifying with another key, makes decoding fail |
| Auth.ExpiryInstant | backend/main.py:77-80 | a truthy delta is added to now; a missing or zero delta falls back to 15 minutes |
| Auth.ClaimsToEncode | backend/main.py:76-81 | the signed claims are the caller's data plus `exp`; other keys are unchanged; `exp` is the expiry instant in whole seconds |
| Auth.CreateAccessToken | backend/main.py:75-83 | the token is an HS256 JWS whose payload is those claims |
| Auth.AccessTokenLifetime | backend/main.py:75-97 | a minted token is accepted until the end of the second holding its expiry and rejected afterwards; while accepted it decodes to the claims it was minted with |
| Auth.SessionToken | backend/main.py:92-94 | there is no session exactly when the `token` cookie is missing or empty; otherwise the session token is the cookie's value |
| Auth.GetCurrentUser | backend/main.py:85-108 | every failure is the single 401 "Could not validate credentials" with `WWW-Authenticate: Bearer` |
| Auth.GetCurrentUserCharacterized | backend/main.py:85-108 | a request resolves to `user` exactly when its `token` cookie is an HS256 JWS signed with the key, acceptable now, whose `sub` is the name of that stored user |
| Auth.GetCurrentUserRejections | backend/main.py:92-107 | each of these is rejected with the 401: a missing cookie, empty or non-JWS text, a bad signature, an expired `exp`, a missing `sub`, a `sub` naming nobody |
| Auth.SessionCookie | backend/main.py:128-136 | the `set_cookie` call of login; only computes, its contract is in `Auth.LoginIssuesSessionCookie` |
| Auth.Login | backend/main.py:110-137 | login succeeds exactly when the user exists and the password verifies; it answers 500 exactly when the user's row holds no usable hash, because the exception from `verify_password` is not caught; every other failure is the single 401 "Incorrect username or password", so a store whose rows all hold digests only ever gives that 401 |
| Auth.LoginIssuesSessionCookie | backend/main.py:119-136 | a successful login answers 200 with one cookie, set up as follows: (1) named `token`; (2) HTTP-only, not secure, lax same-site, path `/`; (3) its max-age equals the token lifetime; (4) its value is an HS256 JWS signed with the key; (5) the payload is exactly `sub` = user name and `exp` = login second + 1800 |
| Auth.LoginFailuresUniform | backend/main.py:113-118 | an unknown user and a wrong password for a known user give the same 401 |
| Auth.LoginIgnoresIsActive | backend/main.py:112-113 | `is_active` has no effect on login: changing it changes no outcome |
| Auth.LoginThenAuthenticated | backend/main.py:119-136 | after a login, a browser holding its cookies is resolved to the same user by every request within the next 30 minutes |
| Auth.LoginTokenExpires | backend/main.py:119-122 | the login cookie is rejected after the second in which its 30 minutes end |
| Auth.Logout | backend/main.py:139-143 | logout answers 200 and sets one cookie, `token`, empty with max-age 0 |
| Auth.DeleteCookie | backend/main.py:142 | Starlette's `delete_cookie("token")`; only computes, its contract is in `Auth.Logout` and `Auth.LogoutEndsBrowserSession` |
| Auth.LogoutEndsBrowserSession | backend/main.py:139-143 | after logout the browser holds no `token` cookie, and its next request to a protected endpoint gets the 401 |
| Auth.LogoutDoesNotRevoke | backend/main.py:139-143 | logout revokes nothing on the server: a copied login token is still accepted until it expires |
| Endpoints.SummaryRequest | backend/main.py:147-156 | the summary request names `llama-3.1-8b-instant`, asks for at most 150 tokens at temperature 0.7 without streaming, and sends a system prompt, then a user prompt that ends with the posted text unchanged |
| Endpoints.BulletPointsRequest | backend/main.py:167-176 | the bullet request has the same shape with at most 200 tokens, and its user prompt also ends with the posted text unchanged |
| Endpoints.ReplyContent | backend/main.py:157 | `response.choices[0].message.content` is available exactly when the call returned, there is a first choice, and its content is not `None`; otherwise the error is the call's own message, `list index out of range` for an empty choice list, or `'NoneType' object has no attribute 'strip'` for a `None` content |
| Endpoints.SummaryWithLlm | backend/main.py:145-163 | the summary is the first choice's content, trimmed; an exception from the call, an empty choice list or a `None` content gives a 500 whose detail is "Error generating summary: " followed by the exception's message |
| Endpoints.BulletPointsWithLlm | backend/main.py:165-187 | the bullets are those of the first choice's content; the same three failures give a 500 with "Error generating bullet points: " and the message |
| Endpoints.GenerateSummary | backend/main.py:189-195 | an unauthenticated request gets the 401; a success comes from an authenticated request and is the summary generation's result; both directions are in `Endpoints.ProtectedEndpointsAuthenticateFirst` |
| Endpoints.GenerateBulletPoints | backend/main.py:197-203 | an unauthenticated request gets the 401; a success comes from an authenticated request and is the bullet generation's result; both directions are in `Endpoints.ProtectedEndpointsAuthenticateFirst` |
| Endpoints.ProtectedEndpointsAuthenticateFirst | backend/main.py:189-203 | both endpoints answer an unauthenticated request with the 401 whatever the language model would reply, and an authenticated one with exactly what generation produces |
| Endpoints.LoginThenSummarize | backend/main.py:189-195 | end to end: after a login, a summary request carrying the cookie within 30 minutes gets the model's reply trimmed; without the cookie it gets the 401 |

## Left out

- The language-model client (`groq.Groq`) and its network call are not modelled. The service is a parameter that maps each chat request to a reply or a raised message. The constructed request (model, prompts, token limits, temperature) is modelled.
- The following are not modelled, because they are framework plumbing with no logic of this backend:
  - FastAPI routing, dependency injection and the CORS middleware;
  - pydantic request and response models;
  - `load_dotenv`, the startup logging, and the `logger.error` calls in the two generation helpers (they only write to the log before the 500 is raised).
- `OAuth2PasswordBearer` is declared but never used by any handler, so it is left out.
- SQLAlchemy sessions and `get_db` are not modelled. The table is an in-memory map, and a transaction is a single function call.
- `SECRET_KEY` (the environment's value, or `"your-secret-key-here"`) is the parameter `key` of every handler. Minting and validation are meant to receive the same value.
- The browser's cookie store is keyed by name alone. It ignores Domain, Path and Expires, and never evicts a cookie whose Max-Age has run out. It only serves to connect the login and logout responses to later requests.
- The wall clock is a parameter `now`. The random salt of `bcrypt.gensalt()` is a parameter of `InitDb`.
- HMAC-SHA256, bcrypt, base64url and JSON serialization are symbolic. Equal terms stand for equal bytes, and there are no collisions or forgeries. A token that is not a well-formed JWS is the `Opaque` case and is rejected as malformed.
- Jwt.ValidateClaims: `jose` also checks `iat`, `nbf`, `aud`, `iss`, `jti` and `at_hash` when present, and it accepts a numeric string as `exp` by parsing it. The model checks only `exp` (a number) and `sub`, the two claims this backend issues and reads.
- Bcrypt.CheckPw: passwords longer than 72 bytes are not modelled, and the library version is not pinned. Releases before 5.0 use only the first 72 bytes, so two passwords that share those bytes match; from 5.0 on, `hashpw` and `checkpw` raise `ValueError`, so `verify_password` raises and login answers 500. The model compares whole passwords and never raises for length.
- Usernames and emails are never NULL. The columns allow NULL, and SQLite's UNIQUE admits several NULL rows, but the model's rows always carry a name and an email, so such rows and their effect on `init_db` are not represented.
- Login form fields are assumed non-empty. FastAPI answers 422 before the handler runs when a required form field is missing or empty. That validation is not modelled: `Auth.Login` runs on any strings, so an empty username or password gets the 401 in the model rather than the 422.
- Auth.AccessTokenLifetime: holds for any claim map given to `create_access_token`. It inherits the simplification of `Jwt.ValidateClaims`: a token minted with, say, an `aud` claim is accepted here, where `jose` would reject it when no audience is passed. The only caller passes `{"sub": username}`.
- JSON claim values are limited to strings and integers, the only kinds this backend puts in a token.
- Python's `str.isspace` set is fixed to its 29 code points. There is no Unicode normalisation.
- The frontend (`frontend/src/app/page.tsx` and its types) is not part of this model.

=== FILE: auth.dfy ===
/**
 * The session logic of backend/main.py: minting access tokens, resolving
 * the `token` cookie of a request to a user, and the `/token` (login) and
 * `/logout` handlers. The wall clock is the parameter `now`, in microseconds
 * since the epoch (the resolution of Python's `datetime`).
 */
module Auth {
  import opened Wrappers
  import opened Jwt
  import opened Database

  const Algorithm := "HS256"
  const AccessTokenExpireMinutes := 30
  const MicrosPerMinute := 60 * MicrosPerSecond
  /** The lifetime `create_access_token` falls back to. */
  const DefaultTokenTtl := 15 * MicrosPerMinute
  /** The lifetime of a login token: `timedelta(minutes=ACCESS_TOKEN_EXPIRE_MINUTES)`. */
  const AccessTokenTtl := AccessTokenExpireMinutes * MicrosPerMinute
  const CookieName := "token"

  /**
   * The expiry instant: `now + expires_delta` when the delta is truthy,
   * otherwise `now` plus 15 minutes. A zero `timedelta` is falsy, so it
   * falls back too; a negative one is truthy and yields an instant in the past.
   */
  function ExpiryInstant(now: int, expiresDelta: Option<int>): (t: int)
    ensures expiresDelta.Some? && expiresDelta.value != 0 ==> t == now + expiresDelta.value
    ensures expiresDelta.None? || expiresDelta.value == 0 ==> t == now + DefaultTokenTtl
  {
    match expiresDelta
    case Some(d) => if d != 0 then now + d else now + DefaultTokenTtl
    case None => now + DefaultTokenTtl
  }

  /**
   * The claims `create_access_token` signs: a copy of `data` with `exp` set
   * to the expiry instant, which `jwt.encode` turns into whole seconds
   * (`timegm` of the UTC time tuple drops the microseconds).
   */
  function ClaimsToEncode(data: Claims, now: int, expiresDelta: Option<int>): (c: Claims)
    ensures c.Keys == data.Keys + {"exp"}
    ensures forall k :: k in data && k != "exp" ==> c[k] == data[k]
    ensures c["exp"] == Num(ExpiryInstant(now, expiresDelta) / MicrosPerSecond)
  {
    data["exp" := Num(ExpiryInstant(now, expiresDelta) / MicrosPerSecond)]
  }

  /** `create_access_token(data, expires_delta)` at time `now`, signed with `key`. */
  function CreateAccessToken(data: Claims, expiresDelta: Option<int>, now: int, key: string): (t: Token)
    ensures t.Compact? && t.jws.header.alg == Algorithm
    ensures t.jws.payload == ClaimsToEncode(data, now, expiresDelta)
  {
    Encode(ClaimsToEncode(data, now, expiresDelta), key, Algorithm)
  }

  /** Whole seconds never run backwards. */
  lemma SecondsMonotone(a: int, b: int)
    requires a <= b
    ensures a / MicrosPerSecond <= b / MicrosPerSecond
  {
  }

  /**
   * A token from `create_access_token` whose `sub`, if any, is a string
   * decodes to the claims it was made from exactly until the end of the
   * second holding its expiry instant, and is rejected from the next second on.
   */
  lemma AccessTokenLifetime(data: Claims, expiresDelta: Option<int>, issued: int, key: string, later: int)
    requires "sub" in data ==> data["sub"].Str?
    ensures var r := Decode(CreateAccessToken(data, expiresDelta, issued, key), key, {Algorithm}, later);
            (r.Ok? <==> later / MicrosPerSecond <= ExpiryInstant(issued, expiresDelta) / MicrosPerSecond)
            && (r.Ok? ==> r.value == ClaimsToEncode(data, issued, expiresDelta))
  {
    EncodeDecode(ClaimsToEncode(data, issued, expiresDelta), key, Algorithm, {Algorithm}, later);
  }

  /** An HTTP error response: status, `detail`, headers. */
  datatype HttpError = HttpError(status: nat, detail: string, headers: map<string, string>)

  /** The one 401 every rejected request to a protected endpoint gets. */
  const CredentialsException := HttpError(401, "Could not validate credentials", map["WWW-Authenticate" := "Bearer"])

  /** The one 401 every rejected login gets. */
  const IncorrectLogin := HttpError(401, "Incorrect username or password", map["WWW-Authenticate" := "Bearer"])

  /** What the server answers when a handler raises an exception it does not catch. */
  const InternalServerError := HttpError(500, "Internal Server Error", map[])

  /** What `get_current_user` reads of a request: its cookies. */
  datatype Request = Request(cookies: map<string, Token>)

  /**
   * `request.cookies.get("token")` followed by `if not token`: a missing
   * cookie and an empty one both count as no session.
   */
  function SessionToken(request: Request): (t: Option<Token>)
    ensures t.None? <==> CookieName !in request.cookies || request.cookies[CookieName] == Opaque("")
    ensures t.Some? ==> t.value == request.cookies[CookieName] && t.value != Opaque("")
  {
    if CookieName in request.cookies && request.cookies[CookieName] != Opaque("") then Some(request.cookies[CookieName])
    else None
  }

  /**
   * `get_current_user`: resolve the session cookie to a user, or raise the
   * single credentials error.
   */
  function GetCurrentUser(request: Request, db: Store, key: string, now: int): (r: Result<User, HttpError>)
    ensures r.Err? ==> r.error == CredentialsException
  {
    match SessionToken(request)
    case None => Err(CredentialsException)
    case Some(token) =>
      match Decode(token, key, {Algorithm}, now)
      case Err(_) => Err(CredentialsException)
      case Ok(payload) =>
        if "sub" !in payload || !payload["sub"].Str? then Err(CredentialsException)
        else
          match FindByUsername(db, payload["sub"].s)
          case None => Err(CredentialsException)
          case Some(user) => Ok(user)
  }

  /**
   * When a request is authenticated as `user`: its `token` cookie is a JWS
   * signed with `key` under HS256, carrying `sub` = the user's name and an
   * `exp` (if any) not yet past, and the store holds that user under that name.
   */
  predicate AuthenticatesAs(request: Request, db: Store, key: string, now: int, user: User) {
    && CookieName in request.cookies
    && var token := request.cookies[CookieName];
    && token.Compact?
    && token.jws.header.alg == Algorithm
    && token.jws.signature == Sign(key, token.jws.header, token.jws.payload)
    && Acceptable(token.jws.payload, now)
    && "sub" in token.jws.payload
    && token.jws.payload["sub"] == Str(user.username)
    && user.username in db.users
    && db.users[user.username] == user
  }

  /**
   * `get_current_user` accepts a request exactly when it is authenticated,
   * returns that user, and otherwise raises the one credentials error.
   */
  lemma GetCurrentUserCharacterized(request: Request, db: Store, key: string, now: int, user: User)
    requires Valid(db)
    ensures GetCurrentUser(request, db, key, now) == Ok(user) <==> AuthenticatesAs(request, db, key, now, user)
    ensures GetCurrentUser(request, db, key, now).Err? ==> GetCurrentUser(request, db, key, now).error == CredentialsException
  {
    if CookieName in request.cookies && request.cookies[CookieName].Compact? {
      var token := request.cookies[CookieName];
      assert SessionToken(request) == Some(token);
      var d := Decode(token, key, {Algorithm}, now);
      if token.jws.header.alg == Algorithm && token.jws.signature == Sign(key, token.jws.header, token.jws.payload) {
        assert d == ValidateClaims(token.jws.payload, now);
      }
      if d.Ok? {
        DecodeSound(token, key, {Algorithm}, now);
      }
    }
  }

  /**
   * Each way of failing gives the same 401: no cookie, an empty cookie, text
   * that is not a JWS, a signature that does not verify, an expired token, a
   * token without `sub`, and a `sub` naming nobody.
   */
  lemma GetCurrentUserRejections(request: Request, db: Store, key: string, now: int)
    ensures CookieName !in request.cookies ==> GetCurrentUser(request, db, key, now) == Err(CredentialsException)
    ensures CookieName in request.cookies && request.cookies[CookieName].Opaque? ==>
              GetCurrentUser(request, db, key, now) == Err(CredentialsException)
    ensures CookieName in request.cookies && request.cookies[CookieName].Compact? ==>
              var jws := request.cookies[CookieName].jws;
              && (jws.signature != Sign(key, jws.header, jws.payload) ==> GetCurrentUser(request, db, key, now) == Err(CredentialsException))
              && ("exp" in jws.payload && jws.payload["exp"].Num? && jws.payload["exp"].n < now / MicrosPerSecond ==>
                    GetCurrentUser(request, db, key, now) == Err(CredentialsException))
              && ("sub" !in jws.payload ==> GetCurrentUser(request, db, key, now) == Err(CredentialsException))
              && ("sub" in jws.payload && jws.payload["sub"].Str? && jws.payload["sub"].s !in db.users ==>
                    GetCurrentUser(request, db, key, now) == Err(CredentialsException))
  {
  }

  /** A form post to `/token`. */
  datatype LoginForm = LoginForm(username: string, password: string)

  /** A `Set-Cookie` header as Starlette's `set_cookie` writes it. */
  datatype SetCookie = SetCookie(name: string, value: Token, maxAge: Option<int>, expires: Option<int>,
                                 path: string, httpOnly: bool, secure: bool, sameSite: string)

  /** A plain response: status, body, cookies set. */
  datatype Response = Response(status: nat, content: string, cookies: seq<SetCookie>)

  /** The session cookie login sets around `token`. */
  function SessionCookie(token: Token): SetCookie {
    SetCookie(CookieName, token, Some(AccessTokenExpireMinutes * 60), None, "/", true, false, "lax")
  }

  /** Starlette's `delete_cookie(name)`: an empty value that expires at once. */
  function DeleteCookie(name: string): SetCookie {
    SetCookie(name, Opaque(""), Some(0), Some(0), "/", false, false, "lax")
  }

  /**
   * The `/token` handler: check the credentials, then answer 200 with a
   * session cookie holding a 30-minute token for the user. Nothing catches
   * an exception from `verify_password`, so a row without a usable hash
   * makes the login answer 500 instead of 401.
   */
  function Login(form: LoginForm, db: Store, key: string, now: int): (r: Result<Response, HttpError>)
    ensures r.Err? ==> r.error == IncorrectLogin || r.error == InternalServerError
    ensures r.Ok? <==> form.username in db.users && db.users[form.username].VerifyPassword(form.password) == Ok(true)
    ensures r == Err(InternalServerError) <==> form.username in db.users && !db.users[form.username].HasDigest()
    ensures HashesWellFormed(db) && r.Err? ==> r.error == IncorrectLogin
  {
    match FindByUsername(db, form.username)
    case None => Err(IncorrectLogin)
    case Some(user) =>
      match user.VerifyPassword(form.password)
      case Err(_) => Err(InternalServerError)
      case Ok(valid) =>
        if !valid then Err(IncorrectLogin)
        else
          var token := CreateAccessToken(map["sub" := Str(user.username)], Some(AccessTokenTtl), now, key);
          Ok(Response(200, "Login successful", [SessionCookie(token)]))
  }

  /**
   * A successful login answers 200 with exactly one cookie: `token`,
   * HTTP-only, lax same-site, not secure, path `/`, kept for as many seconds
   * as the token lives, holding an HS256 JWS signed with `key` whose claims
   * are `sub` = the user's name and `exp` = the login second plus 1800.
   */
  lemma LoginIssuesSessionCookie(form: LoginForm, db: Store, key: string, now: int)
    requires Login(form, db, key, now).Ok?
    ensures var resp := Login(form, db, key, now).value;
            && resp.status == 200
            && |resp.cookies| == 1
            && var c := resp.cookies[0];
            && c.name == CookieName && c.httpOnly && !c.secure && c.sameSite == "lax" && c.path == "/"
            && c.maxAge.Some? && c.maxAge.value * MicrosPerSecond == AccessTokenTtl
            && c.value.Compact?
            && c.value.jws.header.alg == Algorithm
            && c.value.jws.signature == Sign(key, c.value.jws.header, c.value.jws.payload)
            && c.value.jws.payload == map["sub" := Str(db.users[form.username].username),
                                          "exp" := Num(now / MicrosPerSecond + 1800)]
  {
    var resp := Login(form, db, key, now).value;
    var c := resp.cookies[0];
    assert (now + AccessTokenTtl) / MicrosPerSecond == now / MicrosPerSecond + 1800;
    assert c.value.jws.payload == map["sub" := Str(db.users[form.username].username)]["exp" := Num((now + AccessTokenTtl) / MicrosPerSecond)];
  }

  /**
   * Rejected logins are indistinguishable: an unknown username and a wrong
   * password for a known one give the same 401.
   */
  lemma LoginFailuresUniform(form: LoginForm, form': LoginForm, db: Store, key: string, now: int, now': int)
    requires form.username !in db.users
    requires form'.username in db.users && db.users[form'.username].VerifyPassword(form'.password) == Ok(false)
    ensures Login(form, db, key, now) == Login(form', db, key, now') == Err(IncorrectLogin)
  {
  }

  /** `is_active` is never consulted: switching it leaves every login outcome unchanged. */
  lemma LoginIgnoresIsActive(form: LoginForm, db: Store, key: string, now: int, name: string, active: bool)
    requires name in db.users
    ensures var db' := Store(db.users[name := db.users[name].(isActive := active)], db.nextId);
            Login(form, db', key, now) == Login(form, db, key, now)
  {
  }

  /** The `/logout` handler: it reads nothing and always clears the session cookie. */
  function Logout(): (r: Response)
    ensures r.status == 200 && |r.cookies| == 1 && r.cookies[0].name == CookieName
    ensures r.cookies[0].maxAge == Some(0) && r.cookies[0].value == Opaque("")
  {
    Response(200, "Logged out successfully", [DeleteCookie(CookieName)])
  }

  /**
   * How a browser applies `Set-Cookie` headers to a cookie store keyed by
   * name alone: a non-positive Max-Age removes the cookie (as section 5.2.2
   * of RFC 6265 has it), anything else stores the value under the name.
   * Domain, Path, Expires and the ageing of stored cookies are not modelled.
   */
  function ApplySetCookies(jar: map<string, Token>, cookies: seq<SetCookie>): map<string, Token>
    decreases |cookies|
  {
    if cookies == [] then jar
    else ApplySetCookies(ApplySetCookie(jar, cookies[0]), cookies[1..])
  }

  function ApplySetCookie(jar: map<string, Token>, c: SetCookie): map<string, Token> {
    if c.maxAge.Some? && c.maxAge.value <= 0 then jar - {c.name} else jar[c.name := c.value]
  }

  lemma ApplyOneSetCookie(jar: map<string, Token>, c: SetCookie)
    ensures ApplySetCookies(jar, [c]) == ApplySetCookie(jar, c)
  {
    assert [c][1..] == [];
  }

  /**
   * Round trip: after a successful login at `issued`, a browser that stored
   * the response's cookies is resolved to the same user by every request made
   * before the token's 30 minutes are up.
   */
  lemma LoginThenAuthenticated(form: LoginForm, db: Store, key: string, issued: int, jar: map<string, Token>, later: int)
    requires Valid(db)
    requires Login(form, db, key, issued).Ok?
    requires later < issued + AccessTokenTtl
    ensures var jar' := ApplySetCookies(jar, Login(form, db, key, issued).value.cookies);
            GetCurrentUser(Request(jar'), db, key, later) == Ok(db.users[form.username])
  {
    var user := db.users[form.username];
    var resp := Login(form, db, key, issued).value;
    var token := resp.cookies[0].value;
    ApplyOneSetCookie(jar, resp.cookies[0]);
    SecondsMonotone(later, issued + AccessTokenTtl);
    AccessTokenLifetime(map["sub" := Str(user.username)], Some(AccessTokenTtl), issued, key, later);
  }

  /**
   * The session ends with the token: presented after the end of the second
   * in which its 30 minutes run out, the login cookie is rejected.
   */
  lemma LoginTokenExpires(form: LoginForm, db: Store, key: string, issued: int, later: int)
    requires Login(form, db, key, issued).Ok?
    requires (issued + AccessTokenTtl) / MicrosPerSecond < later / MicrosPerSecond
    ensures GetCurrentUser(Request(map[CookieName := Login(form, db, key, issued).value.cookies[0].value]), db, key, later)
            == Err(CredentialsException)
  {
    var user := db.users[form.username];
    AccessTokenLifetime(map["sub" := Str(user.username)], Some(AccessTokenTtl), issued, key, later);
  }

  /** After logout the browser holds no session cookie, so the next request is rejected. */
  lemma LogoutEndsBrowserSession(jar: map<string, Token>, db: Store, key: string, now: int)
    ensures CookieName !in ApplySetCookies(jar, Logout().cookies)
    ensures GetCurrentUser(Request(ApplySetCookies(jar, Logout().cookies)), db, key, now) == Err(CredentialsException)
  {
    ApplyOneSetCookie(jar, Logout().cookies[0]);
  }

  /**
   * Logout revokes nothing on the server: `Logout` reads no state and the
   * store keeps no token list, so a copy of the login token replayed after
   * logout, before it expires, is still accepted.
   */
  lemma LogoutDoesNotRevoke(form: LoginForm, db: Store, key: string, issued: int, later: int)
    requires Valid(db)
    requires Login(form, db, key, issued).Ok?
    requires later < issued + AccessTokenTtl
    ensures GetCurrentUser(Request(map[CookieName := Login(form, db, key, issued).value.cookies[0].value]), db, key, later)
            == Ok(db.users[form.username])
  {
    LoginThenAuthenticated(form, db, key, issued, map[], later);
    var resp := Login(form, db, key, issued).value;
    ApplyOneSetCookie(map[], resp.cookies[0]);
  }
}

=== FILE: bcrypt.dfy ===
/**
 * Salted password hashing as used through `bcrypt.hashpw` and
 * `bcrypt.checkpw` (backend/database.py).
 *
 * The primitive itself is not modelled: a digest is a symbolic term that
 * records the salt and the password it was computed from. Two digests are
 * equal exactly when salt and password agree, which is the collision
 * resistance a caller relies on; nothing in the model reads a digest's
 * password except `CheckPw`, which recomputes the digest and compares.
 */
module Bcrypt {
  import opened Wrappers

  /** What `bcrypt.gensalt()` returns: a cost factor and random salt text. */
  datatype Salt = Salt(cost: nat, text: string)

  /**
   * A stored hash string: what `bcrypt.hashpw` returns, as a symbolic term,
   * or text that does not parse as a bcrypt hash (a row written by other
   * means than `hashpw`).
   */
  datatype Hash = Digest(salt: Salt, password: string) | Unparsable(text: string)

  /** The `ValueError` `checkpw` raises when the stored text carries no valid salt. */
  datatype CheckError = InvalidSalt

  /** `bcrypt.hashpw(password, salt)`. */
  function HashPw(password: string, salt: Salt): (h: Hash)
    ensures h.Digest? && h.salt == salt
  {
    Digest(salt, password)
  }

  /**
   * `bcrypt.checkpw(password, hashed)`: hash again with the salt read from
   * the stored hash and compare, or raise when no salt can be read.
   */
  function CheckPw(password: string, hashed: Hash): (r: Result<bool, CheckError>)
    ensures r.Err? <==> hashed.Unparsable?
  {
    match hashed
    case Unparsable(_) => Err(InvalidSalt)
    case Digest(salt, _) => Ok(HashPw(password, salt) == hashed)
  }

  /**
   * A digest accepts exactly the password it was made from, whatever the
   * salt: the round trip succeeds and every other password fails.
   */
  lemma CheckPwAcceptsOnlyOwnPassword(password: string, candidate: string, salt: Salt)
    ensures CheckPw(candidate, HashPw(password, salt)) == Ok(candidate == password)
  {
  }
}

=== FILE: database.dfy ===
/**
 * The credential store of backend/database.py: the `users` table as an
 * in-memory map from username to record, the password check, and the
 * startup seeding step `init_db`.
 */
module Database {
  import opened Wrappers
  import Bcrypt

  /**
   * A row of the `users` table. The `hashed_password` column is nullable:
   * `None` is a NULL.
   */
  datatype User = User(id: nat, username: string, email: string, hashedPassword: Option<Bcrypt.Hash>, isActive: bool) {

    /**
     * `User.verify_password`: bcrypt's check of `password` against the
     * stored hash. It raises (`AttributeError` on a NULL, `ValueError` on
     * text that is not a bcrypt hash) exactly when the row holds no digest.
     */
    function VerifyPassword(password: string): (r: Result<bool, VerifyError>)
      ensures r.Err? <==> !HasDigest()
      ensures r == Err(NoHashStored) <==> hashedPassword.None?
    {
      match hashedPassword
      case None => Err(NoHashStored)
      case Some(h) =>
        match Bcrypt.CheckPw(password, h)
        case Err(_) => Err(InvalidHash)
        case Ok(b) => Ok(b)
    }

    /** The row holds a hash `hashpw` produced. */
    predicate HasDigest() {
      hashedPassword.Some? && hashedPassword.value.Digest?
    }
  }

  /** The exception `verify_password` raises. */
  datatype VerifyError = NoHashStored | InvalidHash

  /**
   * The table: rows keyed by their username, and the rowid the next insert
   * receives (SQLite gives a new row one more than the largest rowid; rows
   * are never deleted here, so a counter is the same thing).
   */
  datatype Store = Store(users: map<string, User>, nextId: nat)

  /**
   * The table's constraints: every row sits under its own username (so
   * usernames are unique), ids are below the next rowid and distinct, and
   * emails are distinct.
   */
  predicate Valid(db: Store) {
    && (forall name :: name in db.users ==> db.users[name].username == name && db.users[name].id < db.nextId)
    && (forall a, b :: a in db.users && b in db.users && a != b ==>
          db.users[a].email != db.users[b].email && db.users[a].id != db.users[b].id)
  }

  /** Every row holds a hash `hashpw` produced, as every row the program itself writes does. */
  predicate HashesWellFormed(db: Store) {
    forall name :: name in db.users ==> db.users[name].HasDigest()
  }

  /** A freshly created, empty table. */
  function EmptyStore(): (db: Store)
    ensures Valid(db) && db.users == map[]
  {
    Store(map[], 1)
  }

  /**
   * `db.query(User).filter(User.username == name).first()`: no row when
   * the name is not taken; in a valid table, otherwise, a row of that name.
   */
  function FindByUsername(db: Store, name: string): (r: Option<User>)
    ensures r.None? <==> name !in db.users
    ensures Valid(db) && r.Some? ==> r.value.username == name && r.value in db.users.Values
  {
    if name in db.users then Some(db.users[name]) else None
  }

  /**
   * Usernames are unique, so the query has at most one matching row and
   * `.first()` returns it: the result is `Some(u)` exactly when `u` is a row
   * whose username is `name`.
   */
  lemma FindByUsernameUnique(db: Store, name: string, u: User)
    requires Valid(db)
    ensures FindByUsername(db, name) == Some(u) <==> (u in db.users.Values && u.username == name)
  {
    if u in db.users.Values && u.username == name {
      var k :| k in db.users && db.users[k] == u;
    }
  }

  /** The attributes a new `User(...)` is constructed with; `isActive` may be left out. */
  datatype NewUser = NewUser(username: string, email: string, hashedPassword: Option<Bcrypt.Hash>, isActive: Option<bool>)

  /** The error `commit` raises when a unique constraint is violated. */
  datatype DbError = IntegrityError

  predicate EmailTaken(db: Store, email: string) {
    exists name :: name in db.users && db.users[name].email == email
  }

  /** `db.add(user); db.commit()`: insert a row, or fail on a duplicate username or email. */
  function Add(db: Store, n: NewUser): (r: Result<Store, DbError>)
    ensures r.Ok? <==> n.username !in db.users && !EmailTaken(db, n.email)
    ensures r.Ok? ==> r.value.users.Keys == db.users.Keys + {n.username}
    ensures r.Ok? ==> forall name :: name in db.users ==> r.value.users[name] == db.users[name]
    ensures r.Ok? ==> var u := r.value.users[n.username];
                      && u.username == n.username && u.email == n.email
                      && u.hashedPassword == n.hashedPassword && u.id == db.nextId
                      && u.isActive == (n.isActive != Some(false))
    ensures Valid(db) && r.Ok? ==> Valid(r.value)
    ensures HashesWellFormed(db) && r.Ok? ==> (HashesWellFormed(r.value) <==> n.hashedPassword.Some? && n.hashedPassword.value.Digest?)
  {
    if n.username in db.users || EmailTaken(db, n.email) then Err(IntegrityError)
    else
      var row := User(db.nextId, n.username, n.email, n.hashedPassword, n.isActive.GetOr(true));
      Ok(Store(db.users[n.username := row], db.nextId + 1))
  }

  const SeedUsername := "testuser"
  const SeedEmail := "test@example.com"
  const SeedPassword := "secret"

  /**
   * `init_db`: create the test user, with the password "secret" hashed under
   * `salt`, unless a user of that name exists already.
   */
  function InitDb(db: Store, salt: Bcrypt.Salt): (r: Result<Store, DbError>)
    ensures SeedUsername in db.users ==> r == Ok(db)
    ensures r.Err? <==> SeedUsername !in db.users && EmailTaken(db, SeedEmail)
    ensures r.Ok? ==> SeedUsername in r.value.users
    ensures r.Ok? ==> r.value.users.Keys <= db.users.Keys + {SeedUsername}
    ensures r.Ok? ==> forall name :: name in db.users ==> name in r.value.users && r.value.users[name] == db.users[name]
    ensures r.Ok? && SeedUsername !in db.users ==>
              var u := r.value.users[SeedUsername];
              u.email == SeedEmail && u.isActive && u.VerifyPassword(SeedPassword) == Ok(true)
    ensures Valid(db) && r.Ok? ==> Valid(r.value)
    ensures HashesWellFormed(db) && r.Ok? ==> HashesWellFormed(r.value)
  {
    if FindByUsername(db, SeedUsername).Some? then Ok(db)
    else Add(db, NewUser(SeedUsername, SeedEmail, Some(Bcrypt.HashPw(SeedPassword, salt)), Some(true)))
  }

  /** Running `init_db` again, with any salt, leaves the table as the first run left it. */
  lemma InitDbIdempotent(db: Store, salt: Bcrypt.Salt, salt': Bcrypt.Salt)
    requires InitDb(db, salt).Ok?
    ensures InitDb(InitDb(db, salt).value, salt') == InitDb(db, salt)
  {
  }

  /** A user's `is_active` is true unless the constructor was given `False`. */
  lemma NewUserActiveByDefault(db: Store, username: string, email: string, hashed: Option<Bcrypt.Hash>)
    requires Add(db, NewUser(username, email, hashed, None)).Ok?
    ensures Add(db, NewUser(username, email, hashed, None)).value.users[username].isActive
  {
  }
}

=== FILE: endpoints.dfy ===
/**
 * The two protected endpoints of backend/main.py, `/generate-summary/` and
 * `/generate-bullet-points/`: authenticate the request, ask the language
 * model, post-process its reply. The model service is the parameter
 * `gateway`, a function from the chat request sent to the reply received.
 */
module Endpoints {
  import opened Wrappers
  import opened Text
  import opened LlmOutput
  import opened Database
  import opened Auth

  datatype ChatMessage = ChatMessage(role: string, content: string)

  /** The arguments of `client.chat.completions.create`; the temperature is in tenths. */
  datatype ChatRequest = ChatRequest(model: string, messages: seq<ChatMessage>, maxTokens: nat,
                                     temperatureTenths: nat, stream: bool)

  /**
   * What the call yields: the `message.content` of each choice (which may be
   * `None`), or the text of the exception it raised.
   */
  datatype Reply = Replied(choices: seq<Option<string>>) | Raised(message: string)

  const ModelName := "llama-3.1-8b-instant"

  /** The user's text is the end of the prompt, unchanged. */
  predicate TextIsAppended(prompt: string, text: string) {
    |text| <= |prompt| && prompt[|prompt| - |text|..] == text
  }

  /**
   * The summary request: a system prompt, then the user's instruction with
   * the text appended, at most 150 tokens back, temperature 0.7, no streaming.
   */
  function SummaryRequest(text: string): (r: ChatRequest)
    ensures r.model == ModelName && r.maxTokens == 150 && r.temperatureTenths == 7 && !r.stream
    ensures |r.messages| == 2 && r.messages[0].role == "system" && r.messages[1].role == "user"
    ensures TextIsAppended(r.messages[1].content, text)
  {
    ChatRequest(ModelName, [
      ChatMessage("system", "You are a helpful assistant that creates concise and informative summaries."),
      ChatMessage("user", "Please provide a clear and concise summary of the following text:\n\n" + text)
    ], 150, 7, false)
  }

  /** The bullet-point request: as the summary one, with its own prompts and at most 200 tokens. */
  function BulletPointsRequest(text: string): (r: ChatRequest)
    ensures r.model == ModelName && r.maxTokens == 200 && r.temperatureTenths == 7 && !r.stream
    ensures |r.messages| == 2 && r.messages[0].role == "system" && r.messages[1].role == "user"
    ensures TextIsAppended(r.messages[1].content, text)
  {
    ChatRequest(ModelName, [
      ChatMessage("system", "You are a helpful assistant that creates clear and concise bullet points."),
      ChatMessage("user", "Please provide 3-5 key bullet points from the following text:\n\n" + text)
    ], 200, 7, false)
  }

  /**
   * `response.choices[0].message.content`, ready for `.strip()`, or the
   * message of the exception raised on the way: the call's own, an empty
   * choice list, or a `None` content.
   */
  function ReplyContent(reply: Reply): (r: Result<string, string>)
    ensures r.Ok? <==> reply.Replied? && |reply.choices| > 0 && reply.choices[0].Some?
    ensures r.Ok? ==> r.value == reply.choices[0].value
    ensures reply.Raised? ==> r == Err(reply.message)
    ensures reply.Replied? && |reply.choices| == 0 ==> r == Err("list index out of range")
    ensures reply.Replied? && |reply.choices| > 0 && reply.choices[0].None? ==>
              r == Err("'NoneType' object has no attribute 'strip'")
  {
    match reply
    case Raised(m) => Err(m)
    case Replied(choices) =>
      if |choices| == 0 then Err("list index out of range")
      else if choices[0].None? then Err("'NoneType' object has no attribute 'strip'")
      else Ok(choices[0].value)
  }

  /** An internal server error carrying the upstream message. */
  function GenerationFailed(prefix: string, message: string): HttpError {
    HttpError(500, prefix + message, map[])
  }

  /** `generate_summary_with_llm(text)`. */
  function SummaryWithLlm(text: string, gateway: ChatRequest -> Reply): (r: Result<string, HttpError>)
    ensures r.Ok? <==> ReplyContent(gateway(SummaryRequest(text))).Ok?
    ensures r.Ok? ==> r.value == Summary(ReplyContent(gateway(SummaryRequest(text))).value)
    ensures r.Err? ==> r.error == GenerationFailed("Error generating summary: ", ReplyContent(gateway(SummaryRequest(text))).error)
  {
    match ReplyContent(gateway(SummaryRequest(text)))
    case Ok(content) => Ok(Strip(content))
    case Err(m) => Err(GenerationFailed("Error generating summary: ", m))
  }

  /** `generate_bullet_points_with_llm(text)`. */
  function BulletPointsWithLlm(text: string, gateway: ChatRequest -> Reply): (r: Result<seq<string>, HttpError>)
    ensures r.Ok? <==> ReplyContent(gateway(BulletPointsRequest(text))).Ok?
    ensures r.Ok? ==> r.value == BulletPoints(ReplyContent(gateway(BulletPointsRequest(text))).value)
    ensures r.Err? ==> r.error == GenerationFailed("Error generating bullet points: ", ReplyContent(gateway(BulletPointsRequest(text))).error)
  {
    match ReplyContent(gateway(BulletPointsRequest(text)))
    case Ok(content) => Ok(BulletPoints(content))
    case Err(m) => Err(GenerationFailed("Error generating bullet points: ", m))
  }

  /**
   * `POST /generate-summary/`: the body of `SummaryResponse` on success. The
   * model is consulted only for an authenticated request.
   */
  function GenerateSummary(text: string, request: Request, db: Store, key: string, now: int,
                           gateway: ChatRequest -> Reply): (r: Result<string, HttpError>)
    ensures GetCurrentUser(request, db, key, now).Err? ==> r == Err(CredentialsException)
    ensures r.Ok? ==> GetCurrentUser(request, db, key, now).Ok? && r == SummaryWithLlm(text, gateway)
  {
    match GetCurrentUser(request, db, key, now)
    case Err(e) => Err(e)
    case Ok(_) => SummaryWithLlm(text, gateway)
  }

  /**
   * `POST /generate-bullet-points/`: the body of `BulletPointsResponse` on
   * success. The model is consulted only for an authenticated request.
   */
  function GenerateBulletPoints(text: string, request: Request, db: Store, key: string, now: int,
                                gateway: ChatRequest -> Reply): (r: Result<seq<string>, HttpError>)
    ensures GetCurrentUser(request, db, key, now).Err? ==> r == Err(CredentialsException)
    ensures r.Ok? ==> GetCurrentUser(request, db, key, now).Ok? && r == BulletPointsWithLlm(text, gateway)
  {
    match GetCurrentUser(request, db, key, now)
    case Err(e) => Err(e)
    case Ok(_) => BulletPointsWithLlm(text, gateway)
  }

  /**
   * Authentication comes first: an unauthenticated request gets the one 401
   * whatever the model would have replied, and an authenticated one gets
   * exactly what the generation step produces.
   */
  lemma ProtectedEndpointsAuthenticateFirst(text: string, request: Request, db: Store, key: string, now: int,
                                            gateway: ChatRequest -> Reply)
    ensures GetCurrentUser(request, db, key, now).Err? ==>
              GenerateSummary(text, request, db, key, now, gateway) == Err(CredentialsException)
              && GenerateBulletPoints(text, request, db, key, now, gateway) == Err(CredentialsException)
    ensures GetCurrentUser(request, db, key, now).Ok? ==>
              GenerateSummary(text, request, db, key, now, gateway) == SummaryWithLlm(text, gateway)
              && GenerateBulletPoints(text, request, db, key, now, gateway) == BulletPointsWithLlm(text, gateway)
  {
  }

  /**
   * End to end: after a successful login, a summary request carrying the
   * login cookie within 30 minutes gets the model's reply trimmed, while the
   * same request without any cookie gets 401.
   */
  lemma LoginThenSummarize(form: LoginForm, db: Store, key: string, issued: int, later: int,
                           text: string, gateway: ChatRequest -> Reply, content: string)
    requires Valid(db)
    requires Login(form, db, key, issued).Ok?
    requires later < issued + AccessTokenTtl
    requires gateway(SummaryRequest(text)) == Replied([Some(content)])
    ensures var jar := ApplySetCookies(map[], Login(form, db, key, issued).value.cookies);
            GenerateSummary(text, Request(jar), db, key, later, gateway) == Ok(Strip(content))
    ensures GenerateSummary(text, Request(map[]), db, key, later, gateway) == Err(CredentialsException)
  {
    LoginThenAuthenticated(form, db, key, issued, map[], later);
  }
}

=== FILE: jwt.dfy ===
/**
 * JSON Web Tokens signed with HMAC (RFC 7519, the JWS compact form of
 * RFC 7515, algorithm HS256 of section 3.2 of RFC 7518), as `jose.jwt.encode`
 * and `jose.jwt.decode` are used by backend/main.py.
 *
 * HMAC is not modelled bit by bit: a signature is a symbolic term recording
 * the algorithm, key, header and payload it was computed over. Verifying
 * recomputes the term and compares, so a token verifies exactly when it is
 * what the key holder signed (no forgery, no collision).
 */
module Jwt {
  import opened Wrappers

  /** The JSON values a claim holds in this model. */
  datatype Json = Str(s: string) | Num(n: int)

  /** A claims set: JSON object member names to values. */
  type Claims = map<string, Json>

  /** The JOSE header `{"alg": ..., "typ": "JWT"}` that `encode` writes. */
  datatype Header = Header(alg: string, typ: string)

  /** Symbolic MAC over the signing input (header and payload). */
  datatype Tag = Hmac(key: string, header: Header, payload: Claims)

  datatype Jws = Jws(header: Header, payload: Claims, signature: Tag)

  /**
   * A token as it travels in a cookie: the compact serialization of a JWS,
   * or any other text (which does not parse as one).
   */
  datatype Token = Compact(jws: Jws) | Opaque(text: string)

  /** The `JWTError` subclasses `decode` raises. */
  datatype JwtError = Malformed | AlgorithmNotAllowed | SignatureInvalid | ClaimInvalid | SignatureExpired

  /** Seconds are what NumericDate (section 2 of RFC 7519) counts; times here are microseconds. */
  const MicrosPerSecond := 1_000_000

  /** The MAC of a header and payload under `key`. */
  function Sign(key: string, header: Header, payload: Claims): Tag {
    Hmac(key, header, payload)
  }

  /** `jwt.encode(claims, key, algorithm=alg)`. */
  function Encode(claims: Claims, key: string, alg: string): (t: Token)
    ensures t.Compact? && t.jws.payload == claims && t.jws.header.alg == alg
  {
    var header := Header(alg, "JWT");
    Compact(Jws(header, claims, Sign(key, header, claims)))
  }

  /**
   * The claim checks `decode` applies once the signature verifies: `exp`
   * must be a number not below the current time truncated to whole seconds,
   * with no leeway; `sub` must be a string (section 4.1.2 of RFC 7519).
   * Comparing whole seconds accepts a token until the end of the second
   * holding its expiry, slightly later than section 4.1.4 of RFC 7519 allows.
   */
  function ValidateClaims(claims: Claims, now: int): (r: Result<Claims, JwtError>)
    ensures r.Ok? <==> Acceptable(claims, now)
    ensures r.Ok? ==> r.value == claims
  {
    if "exp" in claims && !claims["exp"].Num? then Err(ClaimInvalid)
    else if "exp" in claims && claims["exp"].n < now / MicrosPerSecond then Err(SignatureExpired)
    else if "sub" in claims && !claims["sub"].Str? then Err(ClaimInvalid)
    else Ok(claims)
  }

  /** `jwt.decode(token, key, algorithms=algorithms)` at time `now` (microseconds since the epoch). */
  function Decode(token: Token, key: string, algorithms: set<string>, now: int): (r: Result<Claims, JwtError>)
    ensures r.Ok? <==> && token.Compact?
                       && token.jws.header.alg in algorithms
                       && token.jws.signature == Sign(key, token.jws.header, token.jws.payload)
                       && Acceptable(token.jws.payload, now)
    ensures r.Ok? ==> r.value == token.jws.payload
    ensures token.Opaque? ==> r == Err(Malformed)
  {
    match token
    case Opaque(_) => Err(Malformed)
    case Compact(jws) =>
      if jws.header.alg !in algorithms then Err(AlgorithmNotAllowed)
      else if jws.signature != Sign(key, jws.header, jws.payload) then Err(SignatureInvalid)
      else ValidateClaims(jws.payload, now)
  }

  /** The claims a server-issued token must carry to be accepted at `now`. */
  predicate Acceptable(claims: Claims, now: int) {
    && ("exp" in claims ==> claims["exp"].Num? && now / MicrosPerSecond <= claims["exp"].n)
    && ("sub" in claims ==> claims["sub"].Str?)
  }

  /**
   * Round trip: a token encoded with the key and an allowed algorithm
   * decodes to exactly its claims when they are acceptable at that time,
   * and is rejected otherwise.
   */
  lemma EncodeDecode(claims: Claims, key: string, alg: string, algorithms: set<string>, now: int)
    requires alg in algorithms
    ensures Decode(Encode(claims, key, alg), key, algorithms, now).Ok? <==> Acceptable(claims, now)
    ensures Decode(Encode(claims, key, alg), key, algorithms, now).Ok? ==>
              Decode(Encode(claims, key, alg), key, algorithms, now).value == claims
  {
  }

  /**
   * Only what the key holder signed is accepted: an accepted token is the
   * JWS of its own claims under `key`, with an allowed algorithm, and the
   * claims are acceptable.
   */
  lemma DecodeSound(token: Token, key: string, algorithms: set<string>, now: int)
    requires Decode(token, key, algorithms, now).Ok?
    ensures token.Compact?
    ensures token.jws.payload == Decode(token, key, algorithms, now).value
    ensures token.jws.header.alg in algorithms
    ensures token.jws.signature == Sign(key, token.jws.header, token.jws.payload)
    ensures Acceptable(token.jws.payload, now)
  {
  }

  /**
   * Tampering is detected: keeping the signature of a token while changing
   * its payload or its header, or verifying under another key, fails with
   * an invalid signature (or an algorithm not allowed).
   */
  lemma TamperedRejected(token: Token, key: string, algorithms: set<string>, now: int,
                         header: Header, payload: Claims, otherKey: string)
    requires token.Compact? && token.jws.signature == Sign(key, token.jws.header, token.jws.payload)
    requires header != token.jws.header || payload != token.jws.payload
    ensures Decode(Compact(Jws(header, payload, token.jws.signature)), key, algorithms, now).Err?
    ensures otherKey != key ==> Decode(token, otherKey, algorithms, now).Err?
  {
  }
}

=== FILE: llm_output.dfy ===
/**
 * Post-processing of the text a language model returns: the summary is
 * trimmed, the bullet list is split into lines that are filtered and cleaned
 * (backend/main.py, the tails of the two generation helpers).
 */
module LlmOutput {
  import opened Text
  import opened Seqs

  /** The characters of the `'- '` argument given to `strip` on each line. */
  const BulletMarks: set<char> := {'-', ' '}

  /** The summary returned to the client: the upstream content, trimmed. */
  function Summary(content: string): string {
    Strip(content)
  }

  /**
   * A line the filter drops: one made only of whitespace. The source tests
   * the truthiness of `line.strip()`; `BlankIffStripEmpty` shows the two agree.
   */
  predicate Blank(line: string) {
    AllIn(line, Whitespace)
  }

  /** One kept line turned into a bullet: `line.strip('- ').strip()`. */
  function CleanLine(line: string): string {
    Strip(StripChars(line, BulletMarks))
  }

  /** The candidate lines: `content.strip().split('\n')`. */
  function Lines(content: string): seq<string> {
    Split(Strip(content), '\n')
  }

  /** The comprehension's filter: keep the lines that are not `Blank`. */
  predicate NonBlank(line: string) {
    !Blank(line)
  }

  /** The bullet points returned to the client. */
  function BulletPoints(content: string): seq<string> {
    FilterMap(Lines(content), NonBlank, CleanLine)
  }

  /**
   * Bullet cleanup: one item per line of the trimmed content that is not
   * whitespace-only, in order, each item the line with its `'-'`/`' '` runs
   * and then its whitespace cut from both ends; never more items than lines,
   * and the line count is one more than the newlines of the trimmed content.
   */
  lemma BulletPointsSpec(content: string)
    ensures |Lines(content)| == multiset(Strip(content))['\n'] + 1
    ensures forall j :: 0 <= j < |Lines(content)| ==> '\n' !in Lines(content)[j]
    ensures |BulletPoints(content)| == |KeptIndices(Lines(content), NonBlank)| <= |Lines(content)|
    ensures forall k :: 0 <= k < |BulletPoints(content)| ==>
              BulletPoints(content)[k] == CleanLine(Lines(content)[KeptIndices(Lines(content), NonBlank)[k]])
    ensures forall k :: 0 <= k < |BulletPoints(content)| ==> Bare(BulletPoints(content)[k], Whitespace)
  {
    var lines := Lines(content);
    FilterMapSelectsKept(lines, NonBlank, CleanLine);
    forall k | 0 <= k < |BulletPoints(content)| ensures Bare(BulletPoints(content)[k], Whitespace) {
      CleanLineBare(lines[KeptIndices(lines, NonBlank)[k]]);
    }
  }

  /** A bullet item never starts or ends with whitespace. */
  lemma CleanLineBare(line: string)
    ensures Bare(CleanLine(line), Whitespace)
  {
    StripCharsBare(StripChars(line, BulletMarks), Whitespace);
  }

  /** The filter `if line.strip()` drops a line exactly when it is `Blank`. */
  lemma BlankIffStripEmpty(line: string)
    ensures Blank(line) <==> Strip(line) == []
  {
    StripCharsEmptyIff(line, Whitespace);
  }

  /**
   * A line made only of dashes and spaces, with at least one dash, passes the
   * filter and becomes an empty bullet rather than being dropped.
   */
  lemma DashOnlyLineBecomesEmptyItem(line: string)
    requires AllIn(line, BulletMarks)
    requires '-' in line
    ensures !Blank(line)
    ensures CleanLine(line) == []
  {
    var j :| 0 <= j < |line| && line[j] == '-';
    BlankIffStripEmpty(line);
    StripCharsEmptyIff(line, BulletMarks);
    assert Strip([]) == [] by { StripCharsEmptyIff([], Whitespace); }
  }

  /**
   * A bullet marker run followed by text that starts and ends with neither a
   * marker nor whitespace cleans to that text: `"- a"` becomes `"a"`.
   */
  lemma CleanLineOfMarkedText(marker: string, text: string)
    requires AllIn(marker, BulletMarks)
    requires Bare(text, BulletMarks) && Bare(text, Whitespace)
    ensures CleanLine(marker + text) == text
  {
    assert marker + text == marker + text + [];
    StripCharsUnique(marker + text, marker, text, [], BulletMarks);
    StripCharsOfBare(text, Whitespace);
  }

  lemma TabLineHasNoOuterMarks()
    ensures StripChars("\t- a", BulletMarks) == "\t- a"
  {
    StripCharsOfBare("\t- a", BulletMarks);
  }

  lemma TabLineStrip()
    ensures Strip("\t- a") == "- a"
  {
    assert "\t- a" == "\t" + "- a" + [];
    StripCharsUnique("\t- a", "\t", "- a", [], Whitespace);
  }

  /**
   * The `'- '` strip runs before the whitespace strip, so a marker behind a
   * tab survives: `"\t- a"` becomes `"- a"`.
   */
  lemma TabIndentedMarkerSurvives()
    ensures CleanLine("\t- a") == "- a"
  {
    TabLineHasNoOuterMarks();
    TabLineStrip();
  }

  /** Content that is already trimmed splits back into the lines it was joined from. */
  lemma LinesOfJoin(content: string, lines: seq<string>)
    requires |lines| >= 1 && forall k :: 0 <= k < |lines| ==> '\n' !in lines[k]
    requires content == Join(lines, '\n') && Bare(content, Whitespace)
    ensures Lines(content) == lines
  {
    StripCharsOfBare(content, Whitespace);
    SplitJoin(lines, '\n');
  }

  /** The text of a three-item reply with a blank line before the last item. */
  function ThreeItemReply(a: char, b: char, c: char): string {
    ['-', ' ', a, '\n', '-', ' ', b, '\n', '\n', '-', ' ', c]
  }

  lemma ThreeItemReplyLines(a: char, b: char, c: char)
    requires a !in Whitespace && b !in Whitespace && c !in Whitespace
    ensures Lines(ThreeItemReply(a, b, c)) == [['-', ' ', a], ['-', ' ', b], [], ['-', ' ', c]]
  {
    var lines := [['-', ' ', a], ['-', ' ', b], [], ['-', ' ', c]];
    JoinCons(lines[0], lines[1..], '\n');
    JoinCons(lines[1], lines[2..], '\n');
    JoinCons(lines[2], lines[3..], '\n');
    assert Join(lines, '\n') == ThreeItemReply(a, b, c);
    LinesOfJoin(ThreeItemReply(a, b, c), lines);
  }

  /** A marked line `"- x"` is kept and cleans to `"x"`. */
  lemma MarkedItem(x: char)
    requires x !in BulletMarks && x !in Whitespace
    ensures NonBlank(['-', ' ', x]) && CleanLine(['-', ' ', x]) == [x]
  {
    assert ['-', ' ', x] == "- " + [x];
    CleanLineOfMarkedText("- ", [x]);
    assert ['-', ' ', x][2] !in Whitespace;
  }

  lemma CleanThreeItemLines(lines: seq<string>, a: char, b: char, c: char)
    requires lines == [['-', ' ', a], ['-', ' ', b], [], ['-', ' ', c]]
    requires a !in BulletMarks && b !in BulletMarks && c !in BulletMarks
    requires a !in Whitespace && b !in Whitespace && c !in Whitespace
    ensures FilterMap(lines, NonBlank, CleanLine) == [[a], [b], [c]]
  {
    MarkedItem(a);
    MarkedItem(b);
    MarkedItem(c);
    assert !NonBlank(lines[2]);
    assert lines[..0] == [] && lines[..4] == lines;
    FilterMapStep(lines, 0, NonBlank, CleanLine);
    FilterMapStep(lines, 1, NonBlank, CleanLine);
    FilterMapStep(lines, 2, NonBlank, CleanLine);
    FilterMapStep(lines, 3, NonBlank, CleanLine);
  }

  lemma ThreeItemReplyBullets(a: char, b: char, c: char)
    requires a !in BulletMarks && b !in BulletMarks && c !in BulletMarks
    requires a !in Whitespace && b !in Whitespace && c !in Whitespace
    ensures BulletPoints(ThreeItemReply(a, b, c)) == [[a], [b], [c]]
  {
    ThreeItemReplyLines(a, b, c);
    CleanThreeItemLines(Lines(ThreeItemReply(a, b, c)), a, b, c);
  }

  /** The worked example: `"- a\n- b\n\n- c"` gives `["a", "b", "c"]`. */
  lemma BulletPointsExample()
    ensures BulletPoints("- a\n- b\n\n- c") == ["a", "b", "c"]
  {
    ThreeItemReplyBullets('a', 'b', 'c');
  }

  /**
   * The comprehension as the source executes it, one pass over the lines:
   * keep a line when `line.strip()` is non-empty, and append
   * `line.strip('- ').strip()`.
   */
  method CleanLines(lines: seq<string>) returns (items: seq<string>)
    ensures items == FilterMap(lines, NonBlank, CleanLine)
  {
    items := [];
    var i := 0;
    while i < |lines|
      invariant 0 <= i <= |lines|
      invariant items == FilterMap(lines[..i], NonBlank, CleanLine)
    {
      var point := lines[i];
      FilterMapStep(lines, i, NonBlank, CleanLine);
      BlankIffStripEmpty(point);
      if Strip(point) != [] {
        items := items + [Strip(StripChars(point, BulletMarks))];
      }
      i := i + 1;
    }
    assert lines[..i] == lines;
  }

  /** The bullet-point post-processing: trim, split on newlines, clean. */
  method CollectBulletPoints(content: string) returns (items: seq<string>)
    ensures items == BulletPoints(content)
  {
    var lines := Split(Strip(content), '\n');
    items := CleanLines(lines);
  }

  /** The summary is the upstream content with its whitespace ends cut, and nothing else. */
  lemma SummarySpec(content: string, lead: string, core: string, trail: string)
    requires content == lead + core + trail
    requires AllIn(lead, Whitespace) && AllIn(trail, Whitespace) && Bare(core, Whitespace)
    ensures Summary(content) == core
  {
    StripCharsUnique(content, lead, core, trail, Whitespace);
  }

  /** Trimming the summary again changes nothing. */
  lemma SummaryIdempotent(content: string)
    ensures Summary(Summary(content)) == Summary(content)
    ensures Bare(Summary(content), Whitespace)
  {
    StripCharsIdempotent(content, Whitespace);
  }
}

=== FILE: seqs.dfy ===
/** Python's filtered list comprehension over sequences. */
module Seqs {

  /** `[f(x) for x in xs if keep(x)]`. */
  function FilterMap<T, U>(xs: seq<T>, keep: T -> bool, f: T -> U): seq<U>
    decreases |xs|
  {
    if xs == [] then []
    else
      var last := xs[|xs| - 1];
      FilterMap(xs[..|xs| - 1], keep, f) + (if keep(last) then [f(last)] else [])
  }

  /** The positions of the elements `keep` accepts, in increasing order. */
  function KeptIndices<T>(xs: seq<T>, keep: T -> bool): (idx: seq<nat>)
    ensures |idx| <= |xs|
    ensures forall k :: 0 <= k < |idx| ==> idx[k] < |xs| && keep(xs[idx[k]])
    ensures forall k, m :: 0 <= k < m < |idx| ==> idx[k] < idx[m]
    ensures forall j :: 0 <= j < |xs| && keep(xs[j]) ==> j in idx
    decreases |xs|
  {
    if xs == [] then []
    else
      var n := |xs| - 1;
      var front := xs[..n];
      var prev := KeptIndices(front, keep);
      var idx := prev + (if keep(xs[n]) then [n] else []);
      assert forall k :: 0 <= k < |prev| ==> idx[k] == prev[k] && xs[prev[k]] == front[prev[k]];
      assert forall j :: 0 <= j < n && keep(xs[j]) ==> j in prev by {
        forall j | 0 <= j < n && keep(xs[j]) ensures j in prev {
          assert front[j] == xs[j];
        }
      }
      idx
  }

  /**
   * The comprehension yields `f` of exactly the kept elements, one each, in
   * their original order.
   */
  lemma {:induction false} FilterMapSelectsKept<T, U>(xs: seq<T>, keep: T -> bool, f: T -> U)
    ensures |FilterMap(xs, keep, f)| == |KeptIndices(xs, keep)|
    ensures forall k :: 0 <= k < |KeptIndices(xs, keep)| ==>
              FilterMap(xs, keep, f)[k] == f(xs[KeptIndices(xs, keep)[k]])
    decreases |xs|
  {
    if xs != [] {
      var n := |xs| - 1;
      var front := xs[..n];
      FilterMapSelectsKept(front, keep, f);
      assert forall j :: 0 <= j < n ==> front[j] == xs[j];
    }
  }

  /** Extending the input by one element extends the comprehension by at most that element's image. */
  lemma FilterMapStep<T, U>(xs: seq<T>, i: nat, keep: T -> bool, f: T -> U)
    requires i < |xs|
    ensures FilterMap(xs[..i + 1], keep, f) == FilterMap(xs[..i], keep, f) + (if keep(xs[i]) then [f(xs[i])] else [])
  {
    assert xs[..i + 1][..i] == xs[..i];
  }
}

=== FILE: text.dfy ===
/**
 * Python's `str.strip`, `str.strip(chars)`, `str.split(sep)` and `sep.join`
 * over strings as sequences of Unicode scalar values.
 */
module Text {

  /**
   * The characters for which Python's `str.isspace()` holds; `str.strip()`
   * with no argument removes exactly these from both ends.
   */
  const Whitespace: set<char> := {
    '\t', '\n', '\U{B}', '\U{C}', '\r',
    '\U{1C}', '\U{1D}', '\U{1E}', '\U{1F}', ' ',
    '\U{85}', '\U{A0}', '\U{1680}',
    '\U{2000}', '\U{2001}', '\U{2002}', '\U{2003}', '\U{2004}', '\U{2005}',
    '\U{2006}', '\U{2007}', '\U{2008}', '\U{2009}', '\U{200A}',
    '\U{2028}', '\U{2029}', '\U{202F}', '\U{205F}', '\U{3000}'
  }

  /** Every character of `s` is in `cs`. */
  predicate AllIn(s: string, cs: set<char>) {
    forall k :: 0 <= k < |s| ==> s[k] in cs
  }

  /** `s` neither starts nor ends with a character of `cs`. */
  predicate Bare(s: string, cs: set<char>) {
    s == [] || (s[0] !in cs && s[|s| - 1] !in cs)
  }

  /** The length of the longest prefix of `s` made of characters of `cs`. */
  function LeadLen(s: string, cs: set<char>): (n: nat)
    ensures n <= |s|
    decreases |s|
  {
    if s != [] && s[0] in cs then 1 + LeadLen(s[1..], cs) else 0
  }

  /** The length of the longest suffix of `s` made of characters of `cs`. */
  function TrailLen(s: string, cs: set<char>): (n: nat)
    ensures n <= |s|
    decreases |s|
  {
    if s != [] && s[|s| - 1] in cs then 1 + TrailLen(s[..|s| - 1], cs) else 0
  }

  /** The leading run is made of `cs` characters, and the character after it is not one. */
  lemma {:induction false} LeadLenSpec(s: string, cs: set<char>)
    ensures AllIn(s[..LeadLen(s, cs)], cs)
    ensures LeadLen(s, cs) < |s| ==> s[LeadLen(s, cs)] !in cs
    decreases |s|
  {
    if s != [] && s[0] in cs {
      LeadLenSpec(s[1..], cs);
      var n := LeadLen(s, cs);
      forall k | 0 <= k < n ensures s[..n][k] in cs {
        if k > 0 { assert s[..n][k] == s[1..][..n - 1][k - 1]; }
      }
      if n < |s| { assert s[n] == s[1..][n - 1]; }
    }
  }

  /** The trailing run is made of `cs` characters, and the character before it is not one. */
  lemma {:induction false} TrailLenSpec(s: string, cs: set<char>)
    ensures AllIn(s[|s| - TrailLen(s, cs)..], cs)
    ensures TrailLen(s, cs) < |s| ==> s[|s| - TrailLen(s, cs) - 1] !in cs
    decreases |s|
  {
    if s != [] && s[|s| - 1] in cs {
      var m := |s| - 1;
      TrailLenSpec(s[..m], cs);
      var n := TrailLen(s, cs);
      var tail := s[|s| - n..];
      forall k | 0 <= k < n ensures tail[k] in cs {
        if k < n - 1 { assert tail[k] == s[..m][m - (n - 1)..][k]; }
      }
      if n < |s| { assert s[|s| - n - 1] == s[..m][m - (n - 1) - 1]; }
    }
  }

  /**
   * Python's `s.strip(chars)` with `chars` given as the set `cs`: what is
   * left once the runs of `cs` characters at both ends are cut.
   */
  function StripChars(s: string, cs: set<char>): (r: string)
    ensures |r| <= |s|
  {
    var t := s[LeadLen(s, cs)..];
    t[..|t| - TrailLen(t, cs)]
  }

  /** Python's `s.strip()`. */
  function Strip(s: string): string {
    StripChars(s, Whitespace)
  }

  /**
   * The strip is the slice of `s` at offset `i`, everything cut off on
   * either side is made of `cs` characters, and what is left neither starts
   * nor ends with one.
   */
  lemma StripCharsSlice(s: string, cs: set<char>) returns (i: nat)
    ensures i + |StripChars(s, cs)| <= |s|
    ensures StripChars(s, cs) == s[i..i + |StripChars(s, cs)|]
    ensures AllIn(s[..i], cs) && AllIn(s[i + |StripChars(s, cs)|..], cs)
    ensures Bare(StripChars(s, cs), cs)
  {
    i := LeadLen(s, cs);
    var t := s[i..];
    var r := StripChars(s, cs);
    LeadLenSpec(s, cs);
    TrailLenSpec(t, cs);
    assert r == s[i..i + |r|];
    assert s[i + |r|..] == t[|t| - TrailLen(t, cs)..];
    if r != [] {
      assert r[0] == s[i];
      assert r[|r| - 1] == t[|t| - TrailLen(t, cs) - 1];
    }
  }

  /** The strip never starts or ends with a character of `cs`. */
  lemma StripCharsBare(s: string, cs: set<char>)
    ensures Bare(StripChars(s, cs), cs)
  {
    var _ := StripCharsSlice(s, cs);
  }

  lemma {:induction false} LeadLenOfPadded(a: string, t: string, cs: set<char>)
    requires AllIn(a, cs)
    requires t == [] || t[0] !in cs
    ensures LeadLen(a + t, cs) == |a|
    decreases |a|
  {
    if a != [] {
      assert (a + t)[1..] == a[1..] + t;
      LeadLenOfPadded(a[1..], t, cs);
    } else {
      assert a + t == t;
    }
  }

  lemma {:induction false} TrailLenOfPadded(t: string, b: string, cs: set<char>)
    requires AllIn(b, cs)
    requires t == [] || t[|t| - 1] !in cs
    ensures TrailLen(t + b, cs) == |b|
    decreases |b|
  {
    if b != [] {
      assert (t + b)[..|t + b| - 1] == t + b[..|b| - 1];
      TrailLenOfPadded(t, b[..|b| - 1], cs);
    } else {
      assert t + b == t;
    }
  }

  /**
   * The strip of `s` is THE bare core of `s`: whenever `s` is a run of `cs`
   * characters, then a string that neither starts nor ends with one, then
   * another such run, that middle string is what `StripChars` returns.
   */
  lemma StripCharsUnique(s: string, a: string, r: string, b: string, cs: set<char>)
    requires s == a + r + b
    requires AllIn(a, cs) && AllIn(b, cs) && Bare(r, cs)
    ensures StripChars(s, cs) == r
  {
    if r == [] {
      assert s == (a + b) + [];
      LeadLenOfPadded(a + b, [], cs);
      assert s[|s|..] == [];
    } else {
      assert s == a + (r + b);
      LeadLenOfPadded(a, r + b, cs);
      assert s[|a|..] == r + b;
      TrailLenOfPadded(r, b, cs);
      assert (r + b)[..|r|] == r;
    }
  }

  /** A string already bare of `cs` characters is its own strip. */
  lemma StripCharsOfBare(s: string, cs: set<char>)
    requires Bare(s, cs)
    ensures StripChars(s, cs) == s
  {
    assert s == [] + s + [];
    StripCharsUnique(s, [], s, [], cs);
  }

  /** Stripping twice changes nothing after the first time. */
  lemma StripCharsIdempotent(s: string, cs: set<char>)
    ensures StripChars(StripChars(s, cs), cs) == StripChars(s, cs)
  {
    StripCharsBare(s, cs);
    StripCharsOfBare(StripChars(s, cs), cs);
  }

  /** `s.strip(chars)` is empty exactly when every character of `s` is in `chars`. */
  lemma StripCharsEmptyIff(s: string, cs: set<char>)
    ensures StripChars(s, cs) == [] <==> AllIn(s, cs)
  {
    if AllIn(s, cs) {
      assert s == s + [] + [];
      StripCharsUnique(s, s, [], [], cs);
    }
    if StripChars(s, cs) == [] {
      var i := StripCharsSlice(s, cs);
      forall k | 0 <= k < |s| ensures s[k] in cs {
        if k < i { assert s[..i][k] == s[k]; } else { assert s[i..][k - i] == s[k]; }
      }
    }
  }

  /** Python's `sep.join(parts)` for a one-character separator. */
  function Join(parts: seq<string>, sep: char): string
    decreases |parts|
  {
    if |parts| == 0 then []
    else if |parts| == 1 then parts[0]
    else parts[0] + [sep] + Join(parts[1..], sep)
  }

  /** Joining `x` in front of at least one piece puts one separator between them. */
  lemma JoinCons(x: string, rest: seq<string>, sep: char)
    requires |rest| >= 1
    ensures Join([x] + rest, sep) == x + [sep] + Join(rest, sep)
  {
    assert ([x] + rest)[1..] == rest;
  }

  /** A character put in front of the first piece ends up in front of the join. */
  lemma JoinPrepend(c: char, parts: seq<string>, sep: char)
    requires |parts| >= 1
    ensures Join([[c] + parts[0]] + parts[1..], sep) == [c] + Join(parts, sep)
  {
    if |parts| > 1 {
      JoinCons([c] + parts[0], parts[1..], sep);
      JoinCons(parts[0], parts[1..], sep);
      assert parts == [parts[0]] + parts[1..];
    }
  }

  /**
   * Python's `s.split(sep)` for a one-character separator: the pieces
   * between separators, one more piece than there are separators, empty
   * pieces included.
   */
  function Split(s: string, sep: char): (parts: seq<string>)
    ensures |parts| == multiset(s)[sep] + 1
    ensures forall k :: 0 <= k < |parts| ==> sep !in parts[k]
    ensures Join(parts, sep) == s
    decreases |s|
  {
    if s == [] then [[]]
    else
      var rest := Split(s[1..], sep);
      assert s == [s[0]] + s[1..];
      assert multiset(s) == multiset([s[0]]) + multiset(s[1..]);
      if s[0] == sep then
        JoinCons([], rest, sep);
        [[]] + rest
      else
        JoinPrepend(s[0], rest, sep);
        [[s[0]] + rest[0]] + rest[1..]
  }

  /** Splitting a join of separator-free pieces gives the pieces back. */
  lemma {:induction false} SplitJoin(parts: seq<string>, sep: char)
    requires |parts| >= 1
    requires forall k :: 0 <= k < |parts| ==> sep !in parts[k]
    ensures Split(Join(parts, sep), sep) == parts
    decreases |Join(parts, sep)|
  {
    var s := Join(parts, sep);
    if parts[0] == [] {
      if |parts| > 1 {
        JoinCons([], parts[1..], sep);
        assert s[1..] == Join(parts[1..], sep);
        SplitJoin(parts[1..], sep);
        assert parts == [[]] + parts[1..];
      }
    } else {
      var c := parts[0][0];
      var tail := [parts[0][1..]] + parts[1..];
      assert parts[0] == [c] + tail[0];
      assert tail[1..] == parts[1..];
      assert parts == [[c] + tail[0]] + tail[1..];
      forall k | 0 <= k < |tail| ensures sep !in tail[k] {
        if k == 0 {
          assert forall j :: 0 <= j < |tail[0]| ==> tail[0][j] == parts[0][j + 1];
        } else {
          assert tail[k] == parts[k];
        }
      }
      JoinPrepend(c, tail, sep);
      assert s[1..] == Join(tail, sep);
      SplitJoin(tail, sep);
    }
  }
}

=== FILE: wrappers.dfy ===
/** Failure-carrying values shared by the other modules. */
module Wrappers {

  /** A value that may be absent; Python's `None` on the absent side. */
  datatype Option<+T> = None | Some(value: T) {

    /** The value, or `default` when absent (Python's `x if x is not None else default`). */
    function GetOr(default: T): T {
      match this
      case Some(v) => v
      case None => default
    }
  }

  /** The outcome of an operation that either returns a value or raises an error. */
  datatype Result<+T, +E> = Ok(value: T) | Err(error: E)
}
